=== FILE: README.md ===
# Immorix chat: a Dafny model of the request logic and the client session

This project models the decision logic of a small web chat application.
The backend (`backend/index.js`) is an Express server with signup and login, a `/chat` route and three token-protected transcript routes.
The `/chat` route classifies the message, composes a prompt and relays a language-model worker's output.
The transcript routes save one message, list a user's chat ids, and fetch one chat.
The browser client (`frontend/script.js`) keeps the active chat id, `currentChatId`.
One send turn posts the trimmed message, concatenates the streamed reply and saves both sides.

The model is purely functional:

- `text.dfy` (`Text`): the JavaScript string operations the code relies on. These are `trim` with the ECMAScript whitespace set, ASCII `toLowerCase`, `includes`, `String(n)` for the timestamp, and chunk concatenation.
- `gateway.dfy` (`Gateway`): the `/chat` handler. It covers the empty-message guard, the nine creator keywords, the system instruction, the prompt template with its `trim`, and the streamed output. The worker is an `Exited(chunks)` or `SpawnFailed` outcome.
- `auth.dfy` (`Auth`): the `users` table as a sequence of rows with unique usernames, `/signup`, `/login`, and the `Authorization` header parsing. bcrypt's output is a parameter: signup receives the salted hash it produced, and login receives its comparison as a function. JWT verification is a function from token text to `Option<Claims>`.
- `transcript.dfy` (`Transcript`): the `chats` table as a sequence of rows, and the save, list and fetch endpoints. `CURRENT_TIMESTAMP` is a clock in the store that each insert advances by a given number of seconds. Storage failures are given flags.
- `client.dfy` (`Client`): `currentChatId` as `Option<string>`, and one send turn as an atomic step. What the network does during the turn is a given `Network` value. The module also models the new-chat, open, rename and delete transitions.
- `lifecycle.dfy` (`Lifecycle`): a client turn's save requests delivered to the save endpoint, and what the chat fetch returns afterwards.
- `wrappers.dfy`, `http.dfy`: `Option`, and the `Reply` of a handler (a 200 value, or a status with its error string).

Three behaviours of the code shape the model:

- The chat list has no defined order. The query at `backend/index.js:127` is `SELECT DISTINCT chat_id ... ORDER BY timestamp DESC` on a column it does not select, so the model promises only membership and uniqueness.
- Login reports an unknown user with status 400 "User not found" (`backend/index.js:34`).
- The signing secret is the constant at `backend/index.js:11`. It plays no part in the model because verification is abstract.

## Model

| member | source | states |
|---|---|---|
| Text.Trim | frontend/script.js:41 | the trimmed string is no longer than the input and neither starts nor ends with whitespace |
| Text.TrimIsSlice | frontend/script.js:41 | the trimmed string is a middle slice of the input, and only whitespace is cut from either side |
| Text.TrimEmptyIff | frontend/script.js:41-42 | an input trims to the empty string exactly when every character is whitespace, so only blank input is a no-op |
| Text.TrimIdempotent | frontend/script.js:41 | trimming an already trimmed message changes nothing, so the message posted and saved is in trimmed form |
| Text.Contains | backend/index.js:61-63 | `includes` is true exactly when the keyword occurs at some index of the text |
| Text.Lower | backend/index.js:55 | lowering keeps the length and maps every character through the ASCII lowering of that position, so no character moves |
| Text.LowerIsLower | backend/index.js:55 | the lowercased message has no ASCII capital left, and lowering it again changes nothing |
| Text.Concat | frontend/script.js:62-68 | the accumulated text is empty for no chunks, begins with the first chunk and ends with the last one |
| Text.ConcatAppend | frontend/script.js:64-68 | the accumulated text of two runs of chunks is the text of the first run followed by the text of the second |
| Text.ConcatContainsChunk | frontend/script.js:67-68 | every decoded chunk appears in the accumulated text, at the offset where the chunks before it end |
| Text.ConcatOne | frontend/script.js:62-68 | a single chunk accumulates to exactly itself; with Text.ConcatAppend this pins the text to the chunks joined in order, with nothing added |
| Text.ConcatSnoc | frontend/script.js:68 | appending a chunk to the stream appends exactly its text to the accumulated text |
| Text.Decimal | frontend/script.js:44 | the rendering of `Date.now()` is a non-empty run of decimal digits with no leading zero unless the number is zero |
| Text.DecimalRoundTrip | frontend/script.js:44 | reading back the decimal rendering of the timestamp gives the timestamp |
| Gateway.AnyKeyword | backend/index.js:61-63 | `some` over the keyword list is true exactly when some listed keyword is contained in the text |
| Gateway.IsCreatorQuestion | backend/index.js:55-63 | the classifier holds exactly when one of the nine keywords is contained in the lowercased message |
| Gateway.CreatorQuestionIff | backend/index.js:55-63 | the creator check holds exactly when one of the nine fixed keywords occurs as a substring of the lowercased message |
| Gateway.CreatorQuestionIgnoresCase | backend/index.js:55-63 | the creator check gives the same answer for a message and its lowercase form |
| Gateway.TrimTemplate | backend/index.js:69-72 | trimming the template drops the leading newlines and the final newline, leaving the head and the message with trailing whitespace removed |
| Gateway.ComposePrompt | backend/index.js:65-72 | the prompt is the system instruction + "\nUser: " + message when a keyword matches, otherwise "User: " + message, with trailing whitespace trimmed; a message with any non-space character survives whole except its trailing whitespace |
| Gateway.HandleChat | backend/index.js:45-93 | a missing or empty message gets 400 "Message is required" and no prompt; any other message is streamed with the composed prompt; the caller receives the worker's chunks in order, or the error marker when the worker cannot start |
| Gateway.WhitespaceMessageStreams | backend/index.js:46-47 | a whitespace-only message is not refused; it matches no keyword and its prompt is the bare "User:" |
| Auth.FindUser | backend/index.js:33-34 | the lookup finds a row exactly when some row has that username (never for an absent username) and returns a stored row with that name |
| Auth.Signup | backend/index.js:17-28 | a blank username or password gets 400 and stores nothing; a taken username gets 400 "Username already exists" and stores nothing; otherwise exactly one row is added with the next id and the hash; username uniqueness is preserved |
| Auth.Login | backend/index.js:31-42 | an unknown or absent username gets 400; an existing user with a password the hash rejects gets 401, never 400; a found user whose hash accepts the password always succeeds, and success carries exactly the stored row's id and username |
| Auth.UniqueRow | backend/db.js:6-10 | under the UNIQUE username constraint, looking up a stored row's username finds that very row |
| Auth.SignupThenLogin | backend/index.js:17-42 | signing up a new user and then logging in with the same credentials succeeds with a token naming the new id and username, whenever bcrypt accepts the password against its own hash |
| Auth.SignupTwice | backend/index.js:19-25 | a second signup under the same username, with any non-empty password, is refused with "Username already exists" and leaves the table unchanged |
| Auth.BearerToken | backend/index.js:105 | a token is extracted exactly when the header is present and contains a space, and the token contains no space |
| Auth.BearerRoundTrip | backend/index.js:105 | the header scheme + " " + token, optionally followed by a space and more text, yields exactly the token, so the client's "Bearer " + token header round-trips |
| Auth.Authenticate | backend/index.js:105-107 | a request without an Authorization header, or whose header has no space, is never authenticated; otherwise the outcome is exactly what the verifier gives for the extracted token |
| Auth.BearerHeaderAuthenticates | frontend/script.js:91 | the client's "Bearer " + token header, for a token without spaces, is authenticated exactly as the verifier judges that token |
| Auth.NoUsersValid | backend/db.js:6-10 | the empty users table, whose first AUTOINCREMENT id is 1, satisfies the table invariant |
| Transcript.EmptyStoreValid | backend/models/chat.js:3-12 | the empty chats table at clock zero satisfies the table invariant |
| Transcript.ChatRows | backend/index.js:145-147 | the chat query selects exactly the caller's rows under that chat id, each as many times as it is stored, in nondecreasing timestamp order |
| Transcript.ChatIds | backend/index.js:126-128 | the distinct query yields each chat id the user has a row under, once, and no other id |
| Transcript.Save | backend/index.js:103-119 | a token that fails verification gets 401 and a failed insert gets 500, and neither changes the table; otherwise exactly one row is appended with the token's user id and the body's fields, every existing row is untouched, and timestamps stay nondecreasing |
| Transcript.ListChats | backend/index.js:122-137 | a bad token gets 401; otherwise the reply holds each of the caller's chat ids once and never an id that only another user has |
| Transcript.Messages | backend/index.js:146 | a fetched chat keeps exactly the role and message of each selected row, in the same order |
| Transcript.GetChat | backend/index.js:140-156 | a bad token gets 401; otherwise the reply is the role and message of the rows the chat query selects for the caller, in order |
| Transcript.SaveIsolation | backend/index.js:103-156 | a save by one user changes neither the chat list nor any fetched chat of a different user |
| Transcript.SaveThenGet | backend/index.js:103-156 | in a valid table, a save into a chat stamped a second or more after the previous insert makes the next fetch of that chat return the earlier messages followed by the saved one |
| Transcript.SaveThenList | backend/index.js:103-137 | after a save the caller's list holds the earlier chat ids and the saved one, and no other |
| Transcript.ForeignChatIsEmpty | backend/index.js:140-156 | a chat id under which the caller has no row fetches as an empty list, whoever else uses it |
| Transcript.ChronologicalSnoc | backend/models/chat.js:10 | appending the latest-stamped row to a chronological selection of earlier rows keeps it chronological |
| Client.WithId | frontend/script.js:43-45 | a send with no active id (or the empty one) creates "chat-" + the current time; an existing id is kept unchanged |
| Client.NewChatId | frontend/script.js:44 | a fresh chat id is "chat-" followed by at least one decimal digit, with no leading zero unless the time is zero |
| Client.NewChatIdIsTime | frontend/script.js:44 | the part of a fresh id after "chat-" is the decimal rendering of the current time and reads back as that time |
| Client.ReplyText | frontend/script.js:75-78 | the reply shown and saved neither starts nor ends with whitespace, and it is empty exactly when the streamed text was all whitespace |
| Client.ReplyTextIsSlice | frontend/script.js:75-78 | the reply shown and saved is a middle slice of the concatenated chunks, with only whitespace cut from either side |
| Client.Exchange | frontend/script.js:53-82 | the message is posted first; a broken stream saves nothing and shows the error; a completed stream shows the trimmed reply and saves the user message and then the reply under the id, stopping at the first rejected save |
| Client.Send | frontend/script.js:40-83 | blank input changes nothing and sends nothing; otherwise the session keeps or creates the id; a throwing list refresh ends the turn with the refresh as its only request, before anything is posted or shown; otherwise the optional refresh is followed by the exchange |
| Client.SendTrimmed | frontend/script.js:43-83 | for a non-blank message, the id check comes first and its result is the session the turn ends with; a new id is announced by a list refresh, and if that refresh throws nothing else is sent or shown; otherwise the exchange follows the refresh |
| Client.ExchangeSavesUnderId | frontend/script.js:53-78 | the exchange sends the message post and otherwise only saves under the chat id it was given, never a list refresh |
| Client.SavesCarryActiveId | frontend/script.js:86-95 | every save a turn sends carries the chat id that is active once the turn ends |
| Client.BrokenStreamSavesNothing | frontend/script.js:79-81 | when the request or stream fails, the message was posted, no save is sent, the error message is shown, and the active id is kept |
| Client.CompletedTurnSavesBoth | frontend/script.js:74-78 | after a completed stream, when neither save request is rejected, the turn ends with exactly two saves under the active id: the trimmed user message with role "user", then the trimmed concatenated reply with role "ai" |
| Client.NewChat | frontend/script.js:206-211 | starting a new chat sets the active id to null, not the empty string, so the next send creates one |
| Client.Open | frontend/script.js:144-145 | opening a chat makes its id the active id |
| Client.Rename | frontend/script.js:112-169 | a rename is requested only for a non-empty name that differs from the old id; renaming the active chat moves the active id to the new name; renaming another chat, cancelling or a rejected request leaves it unchanged |
| Client.Delete | frontend/script.js:118-181 | deleting the active chat clears the active id; deleting another chat, cancelling or a rejected request leaves it unchanged |
| Client.NewChatIdInjective | frontend/script.js:44 | chats started at different milliseconds get different ids |
| Client.OpenThenSend | frontend/script.js:144-145 | after opening a chat with a non-empty id, a send keeps that chat active, sends no list refresh, and saves only under that chat's id |
| Client.NewChatThenSend | frontend/script.js:206-207 | after a new chat, a non-blank send refreshes the list first and saves only under the fresh "chat-" + now id |
| Client.RenameThenSend | frontend/script.js:167 | after the active chat is renamed, the next turn saves under the new name |
| Client.DeleteThenSend | frontend/script.js:179 | after the active chat is deleted, the next non-blank send starts a fresh "chat-" + now id and saves only under it |
| Lifecycle.TurnIsPersisted | frontend/script.js:77-78 | in a valid table, with each save stamped a second or more after the insert before it, a completed turn whose saves are accepted leaves the chat holding its earlier messages, then the user's trimmed message, then the trimmed reply |
| Lifecycle.PersistTurn | frontend/script.js:86-95 | in a valid table, with each save stamped a second or more after the insert before it, delivering the request sequence of a completed turn with a valid token appends exactly the user and AI messages, in that order, to the fetched chat |
| Lifecycle.DeliverTurn | frontend/script.js:86-95 | of a completed turn's requests, only the two saves reach the table, the user's first and the reply second |

## Left out

- Transcript.GetChat: rows with equal timestamps come back in insertion order. SQLite leaves their order unspecified, and `CURRENT_TIMESTAMP` has one-second resolution. The append-order lemmas therefore require the new row to be stamped at least a second later.
- Lifecycle.TurnIsPersisted: the client sends the two saves back to back, so their rows normally share one `CURRENT_TIMESTAMP` second. `ORDER BY timestamp ASC` then leaves the order of the message and the reply to SQLite. The lemma, like Lifecycle.PersistTurn, promises the order only when each save is stamped a second or more after the insert before it.
- Transcript.ListChats: promises membership and uniqueness only. The query's `ORDER BY timestamp DESC` sorts on a column that `SELECT DISTINCT chat_id` does not return, so no order is well defined.
- Text.Lower, Text.LowerIsLower: lowercasing is ASCII only. JavaScript's `toLowerCase` folds all of Unicode.
- Auth.Login: the password is always a string. A missing password field sends `undefined` into bcrypt's comparison, whose behaviour is library code outside this model.
- Auth.Signup: any insert error is reported as "Username already exists" in the source. The model produces that reply only for a taken username, the one insert error it represents.
- Gateway.HandleChat: the message is absent or a string. JSON bodies with a number or object `message` are not modelled.
- Auth.Signup: the username and password are absent or strings. A non-empty number, boolean or object passes the `!username || !password` guard and reaches bcrypt and the INSERT; those paths are not modelled.
- Auth.Login: the username is absent or a string. A non-string bound into `username = ?` is not modelled.
- Transcript.Save: the body fields are absent or strings. A number, boolean or object bound into the INSERT is not modelled.
- Transcript.GetChat: Express routing and URL encoding are not modelled. `GET /api/chat/list` is registered before `/api/chat/:chat_id`, so a chat whose id is "list" can never be fetched. The client builds the fetch URL without encoding the id, so an id containing `/`, `?` or `#` reaches the handler mangled or not at all, and a client-side rename can make such an id active. The model's fetch takes the chat id as given, so its promises, and those of the Lifecycle lemmas, hold only for ids the route carries unchanged.
- bcrypt hashing and comparison, JWT signing and verification, and the one-hour token expiry are library calls. They are parameters (`hashed`, `matches`, `verify`).
- Database read and lookup errors: the 500 replies of list and fetch, and login's `err` branch, are flags or are folded into "User not found". SQLite itself is the row sequence.
- The model worker process is out of scope: spawn, stdin, stderr logging, event-stream headers and the close handler. Its effect is the given chunks or a spawn failure.
- UTF-8 decoding of the stream: chunks are already-decoded strings. The decoder's final flush, which the client never calls, is not modelled.
- Browser-only behaviour is out of scope: DOM rendering, the typing indicator, scrolling, chat-list rendering, export to a file, speech input, the theme toggle, service-worker registration, logout and the login redirect.
- The rename and delete routes the client calls do not exist in the backend. Only the client's active-id update is modelled, and the table keeps the old chat id.
- Async interleaving: each send is one atomic step. The saves read `currentChatId` when they are sent, so a chat switch during a stream is not modelled.
- OTP issue, verification and password reset: no such code is in `backend/index.js`.
- `frontend/index.js`, an older send loop without persistence, is not part of this model. Neither is `backend/server.js`.

=== FILE: auth.dfy ===
/** The `/signup` and `/login` handlers and the bearer-token extraction the
    protected endpoints share. The `users` table is a sequence of rows with a
    unique username; bcrypt and the JSON Web Token library stay abstract:
    signup receives the salted hash bcrypt produced, login receives bcrypt's
    comparison as a function, and token verification is a function from the
    token text to the claims it carries. */
module Auth {
  import opened Wrappers
  import opened Http

  datatype UserRow = UserRow(id: nat, username: string, passwordHash: string)

  /** The users table and the next AUTOINCREMENT id. */
  datatype Users = Users(rows: seq<UserRow>, nextId: nat)

  /** What a login token carries. */
  datatype Claims = Claims(id: nat, username: string)

  /** The fresh table: no rows, ids start at 1. */
  const NoUsers: Users := Users([], 1)

  /** Usernames are unique (the UNIQUE column), ids are positive, increase
      with insertion order and stay below the next id. */
  predicate Valid(u: Users) {
    && u.nextId > 0
    && (forall i, j :: 0 <= i < j < |u.rows| ==> u.rows[i].username != u.rows[j].username)
    && (forall i, j :: 0 <= i < j < |u.rows| ==> u.rows[i].id < u.rows[j].id)
    && (forall i :: 0 <= i < |u.rows| ==> 0 < u.rows[i].id < u.nextId)
  }

  /** The empty table, whose first id will be 1, is valid. */
  lemma NoUsersValid()
    ensures Valid(NoUsers)
  {
  }

  predicate Taken(u: Users, name: string) {
    exists i :: 0 <= i < |u.rows| && u.rows[i].username == name
  }

  /** A request field JavaScript treats as false: absent or empty. */
  predicate Blank(field: Option<string>) {
    field.None? || field.value == ""
  }

  /** `SELECT * FROM users WHERE username = ?`: the first row with that
      username; an absent username binds NULL and matches no row. */
  function FindUser(rows: seq<UserRow>, name: Option<string>): (r: Option<UserRow>)
    ensures r.Some? <==> name.Some? && exists i :: 0 <= i < |rows| && rows[i].username == name.value
    ensures r.Some? ==> r.value in rows && r.value.username == name.value
  {
    if name.None? || rows == [] then None
    else if rows[0].username == name.value then Some(rows[0])
    else
      var r := FindUser(rows[1..], name);
      assert (exists i :: 0 <= i < |rows| && rows[i].username == name.value)
          ==> exists i :: 0 <= i < |rows[1..]| && rows[1..][i].username == name.value by {
        if exists i :: 0 <= i < |rows| && rows[i].username == name.value {
          var i :| 0 <= i < |rows| && rows[i].username == name.value;
          assert rows[1..][i - 1] == rows[i];
        }
      }
      r
  }

  /** `POST /signup`. A blank username or password is refused with 400 and
      stores nothing; a username already present is refused with 400
      "Username already exists" and stores nothing; otherwise exactly one row
      is added, under the next id, holding the hash and not the password. */
  function Signup(u: Users, username: Option<string>, password: Option<string>, hashed: string)
    : (r: (Reply<string>, Users))
    ensures Blank(username) || Blank(password) ==>
      r == (Error(BadRequest, "Username and password are required"), u)
    ensures !Blank(username) && !Blank(password) && Taken(u, username.value) ==>
      r == (Error(BadRequest, "Username already exists"), u)
    ensures r.0.Ok? <==> !Blank(username) && !Blank(password) && !Taken(u, username.value)
    ensures r.0.Ok? ==>
      && r.1.rows == u.rows + [UserRow(u.nextId, username.value, hashed)]
      && r.1.nextId == u.nextId + 1
    ensures Valid(u) ==> Valid(r.1)
  {
    if Blank(username) || Blank(password) then
      (Error(BadRequest, "Username and password are required"), u)
    else if Taken(u, username.value) then
      (Error(BadRequest, "Username already exists"), u)
    else
      (Ok("User created successfully"), Users(u.rows + [UserRow(u.nextId, username.value, hashed)], u.nextId + 1))
  }

  /** `POST /login`. An unknown (or absent) username gets 400; a known one
      with a password the hash rejects gets 401, never 400; success yields a
      token carrying exactly the stored row's id and username. */
  function Login(u: Users, username: Option<string>, password: string, matches: (string, string) -> bool)
    : (r: Reply<Claims>)
    ensures r == Error(BadRequest, "User not found") <==>
      username.None? || !Taken(u, username.value)
    ensures r == Error(Unauthorized, "Incorrect password") <==>
      exists row :: FindUser(u.rows, username) == Some(row) && !matches(password, row.passwordHash)
    ensures r.Ok? <==>
      exists row :: FindUser(u.rows, username) == Some(row) && matches(password, row.passwordHash)
    ensures r.Ok? ==>
      exists row :: row in u.rows && row.username == username.value
        && matches(password, row.passwordHash) && r.value == Claims(row.id, row.username)
  {
    match FindUser(u.rows, username)
    case None => Error(BadRequest, "User not found")
    case Some(row) =>
      if !matches(password, row.passwordHash) then Error(Unauthorized, "Incorrect password")
      else Ok(Claims(row.id, row.username))
  }

  /** A username that is taken in a valid table is held by exactly one row. */
  lemma UniqueRow(u: Users, row: UserRow)
    requires Valid(u) && row in u.rows
    ensures FindUser(u.rows, Some(row.username)) == Some(row)
  {
    var found := FindUser(u.rows, Some(row.username)).value;
    var i :| 0 <= i < |u.rows| && u.rows[i] == row;
    var j :| 0 <= j < |u.rows| && u.rows[j] == found;
    if i < j || j < i {
      assert false;
    }
  }

  /** Signing up and then logging in with the same credentials succeeds,
      and the token names the new user, whenever bcrypt accepts the
      password against the hash it produced. */
  lemma SignupThenLogin(u: Users, username: string, password: string, hashed: string,
                        matches: (string, string) -> bool)
    requires Valid(u) && username != "" && password != "" && !Taken(u, username)
    requires matches(password, hashed)
    ensures var (reply, u') := Signup(u, Some(username), Some(password), hashed);
      reply.Ok? && Login(u', Some(username), password, matches) == Ok(Claims(u.nextId, username))
  {
    var (_, u') := Signup(u, Some(username), Some(password), hashed);
    var row := UserRow(u.nextId, username, hashed);
    assert u'.rows[|u.rows|] == row;
    UniqueRow(u', row);
  }

  /** A second signup under a taken name leaves the table unchanged, even
      with another password. */
  lemma SignupTwice(u: Users, username: string, password: string, password': string,
                    hashed: string, hashed': string)
    requires username != "" && password != "" && password' != ""
    ensures var (_, u') := Signup(u, Some(username), Some(password), hashed);
      Signup(u', Some(username), Some(password'), hashed') ==
        (Error(BadRequest, "Username already exists"), u')
  {
    var (_, u') := Signup(u, Some(username), Some(password), hashed);
    if !Taken(u, username) {
      assert u'.rows[|u.rows|].username == username;
    } else {
      assert u' == u;
    }
  }

  /** `req.headers.authorization?.split(' ')[1]`: the text between the
      first space and the next one (or the end); absent when the header is
      absent or has no space. */
  function BearerToken(header: Option<string>): (r: Option<string>)
    ensures r.Some? <==> header.Some? && ' ' in header.value
    ensures r.Some? ==> ' ' !in r.value
  {
    if header.None? then None
    else
      var h := header.value;
      var k := FirstSpace(h);
      if k == |h| then None
      else
        var rest := h[k + 1..];
        Some(rest[..FirstSpace(rest)])
  }

  /** Index of the first space in `s`, or `|s|` when there is none. */
  function FirstSpace(s: string): (k: nat)
    ensures k <= |s|
    ensures ' ' !in s[..k]
    ensures k < |s| ==> s[k] == ' '
  {
    if s == [] || s[0] == ' ' then 0
    else
      var k := FirstSpace(s[1..]);
      assert s[..k + 1] == [s[0]] + s[1..][..k];
      k + 1
  }

  /** The header `scheme + " " + token` yields the token, whatever follows
      after a further space: the client's `"Bearer " + token` round-trips. */
  lemma {:induction false} BearerRoundTrip(scheme: string, token: string, tail: string)
    requires ' ' !in scheme && ' ' !in token
    requires tail == [] || tail[0] == ' '
    ensures BearerToken(Some(scheme + " " + token + tail)) == Some(token)
  {
    var h := scheme + " " + token + tail;
    FirstSpaceAt(scheme, " " + token + tail);
    assert h == scheme + (" " + token + tail);
    var rest := h[|scheme| + 1..];
    assert rest == token + tail;
    FirstSpaceAt(token, tail);
    assert rest[..|token|] == token;
  }

  /** The first space of `a + b`, when `a` has none and `b` is empty or
      starts with one, is at `|a|`. */
  lemma {:induction false} FirstSpaceAt(a: string, b: string)
    requires ' ' !in a
    requires b == [] || b[0] == ' '
    ensures FirstSpace(a + b) == |a|
    decreases |a|
  {
    if a == [] {
      assert a + b == b;
    } else {
      assert (a + b)[0] == a[0];
      assert (a + b)[1..] == a[1..] + b;
      assert a[0] in a;
      assert ' ' !in a[1..];
      FirstSpaceAt(a[1..], b);
    }
  }

  /** Token verification on a request: no token means 401, as
      `jwt.verify(undefined)` throws; otherwise the verifier decides. */
  function Authenticate(header: Option<string>, verify: string -> Option<Claims>): (r: Option<Claims>)
    ensures BearerToken(header).None? ==> r.None?
    ensures BearerToken(header).Some? ==> r == verify(BearerToken(header).value)
    ensures header.None? ==> r.None?
  {
    match BearerToken(header)
    case None => None
    case Some(t) => verify(t)
  }

  /** The client's `"Bearer " + token` header is authenticated exactly as the
      verifier judges the token: the header format and the server's parse
      agree. */
  lemma BearerHeaderAuthenticates(token: string, verify: string -> Option<Claims>)
    requires ' ' !in token
    ensures Authenticate(Some("Bearer " + token), verify) == verify(token)
  {
    BearerRoundTrip("Bearer", token, []);
    assert "Bearer" + " " + token + [] == "Bearer " + token;
  }
}

=== FILE: client.dfy ===
/** The browser client's chat session: the active chat id
    (`currentChatId`) and how one send turn, a new chat, opening, renaming
    and deleting a chat change it. Each turn runs as one atomic step; the
    network's behaviour during it (whether the list refresh throws, what the
    model stream delivers, whether a save request is rejected) is given. */
module Client {
  import opened Wrappers
  import opened Text

  /** `currentChatId`: `None` is `null`. */
  datatype Session = Session(active: Option<string>)

  /** A request the client sends. */
  datatype Request =
    | ListRequest
    | ChatRequest(message: string)
    | SaveRequest(chatId: string, role: string, message: string)

  /** A message added to the chat box; `sender` is its CSS class. */
  datatype Bubble = Bubble(sender: string, content: string)

  /** How the model stream went: all decoded chunks up to the end, or a
      rejection (network or read error) with its message. */
  datatype Stream = Completed(chunks: seq<string>) | Broken(reason: string)

  /** What the network does during one turn. `listThrows` is a failing chat
      list refresh (a rejected fetch, or a 401 body that is not an array);
      a save error is the message of a rejected save request. */
  datatype Network = Network(listThrows: bool, stream: Stream,
                             userSaveError: Option<string>, aiSaveError: Option<string>)

  /** The outcome of one send: the next session, the requests sent in
      order, and the bubbles added in order. */
  datatype Turn = Turn(session: Session, requests: seq<Request>, shown: seq<Bubble>)

  const ChatIdPrefix: string := "chat-"
  const ErrorPrefix: string := "\U{274C} Error: "

  /** `"chat-" + Date.now()`: the prefix followed by the decimal digits of
      the time, with no leading zero unless the time is zero. */
  function NewChatId(now: nat): (r: string)
    ensures |r| > |ChatIdPrefix| && r[..|ChatIdPrefix|] == ChatIdPrefix
    ensures forall i :: |ChatIdPrefix| <= i < |r| ==> IsDigit(r[i])
    ensures r[|ChatIdPrefix|] == '0' ==> now == 0
  {
    ChatIdPrefix + Decimal(now)
  }

  /** The digits after the prefix read back as the time the id was made. */
  lemma NewChatIdIsTime(now: nat)
    ensures forall i :: |ChatIdPrefix| <= i < |NewChatId(now)| ==> IsDigit(NewChatId(now)[i])
    ensures NewChatId(now)[|ChatIdPrefix|..] == Decimal(now)
    ensures ParseDecimal(NewChatId(now)[|ChatIdPrefix|..]) == now
  {
    assert NewChatId(now)[|ChatIdPrefix|..] == Decimal(now);
    DecimalRoundTrip(now);
  }

  /** `!currentChatId`: no id, or the empty one. */
  predicate NeedsId(s: Session) {
    s.active.None? || s.active.value == ""
  }

  /** The session once the id check at the start of a send is done. */
  function WithId(s: Session, now: nat): (s': Session)
    ensures s'.active.Some? && s'.active.value != ""
    ensures !NeedsId(s) ==> s' == s
    ensures NeedsId(s) ==> s'.active == Some(NewChatId(now))
  {
    if NeedsId(s) then Session(Some(NewChatId(now))) else s
  }

  /** The send got as far as posting the message to `/chat`: the input was
      not blank, and no list refresh for a fresh id threw first. */
  predicate Posts(s: Session, input: string, net: Network) {
    Trim(input) != "" && !(NeedsId(s) && net.listThrows)
  }

  predicate NoSave(requests: seq<Request>) {
    forall i :: 0 <= i < |requests| ==> !requests[i].SaveRequest?
  }

  /** The displayed and saved reply: the decoded chunks concatenated in
      order, then trimmed. */
  function ReplyText(chunks: seq<string>): (r: string)
    ensures r == [] || (!IsSpace(r[0]) && !IsSpace(r[|r| - 1]))
    ensures r == [] <==> AllSpace(Concat(chunks))
  {
    var text := Concat(chunks);
    TrimEmptyIff(text);
    Trim(text)
  }

  /** The reply is the streamed text with whitespace cut from its ends and
      nothing else: a middle slice of the concatenated chunks. */
  lemma ReplyTextIsSlice(chunks: seq<string>)
    ensures SpaceFramed(Concat(chunks), ReplyText(chunks))
  {
    TrimIsSlice(Concat(chunks));
  }

  /** The part of a send after the message is shown: post it to `/chat`,
      read the stream, then save both sides under `id`. Returns the requests
      and the bubbles, in order. A broken stream saves nothing; a completed
      one shows the trimmed concatenation of the chunks and saves first the
      user message, then that reply, stopping at the first rejected save. */
  function Exchange(id: string, message: string, net: Network): (r: (seq<Request>, seq<Bubble>))
    ensures net.stream.Broken? ==>
      r == ([ChatRequest(message)], [Bubble("user", message), Bubble("error", ErrorPrefix + net.stream.reason)])
    ensures net.stream.Completed? ==>
      var user := Bubble("user", message);
      var ai := Bubble("ai", ReplyText(net.stream.chunks));
      var saveUser := SaveRequest(id, "user", message);
      var saveAi := SaveRequest(id, "ai", ReplyText(net.stream.chunks));
      match (net.userSaveError, net.aiSaveError)
      case (Some(e), _) => r == ([ChatRequest(message), saveUser], [user, ai, Bubble("error", ErrorPrefix + e)])
      case (None, Some(e)) => r == ([ChatRequest(message), saveUser, saveAi], [user, ai, Bubble("error", ErrorPrefix + e)])
      case (None, None) => r == ([ChatRequest(message), saveUser, saveAi], [user, ai])
  {
    var user := Bubble("user", message);
    match net.stream
    case Broken(reason) => ([ChatRequest(message)], [user, Bubble("error", ErrorPrefix + reason)])
    case Completed(chunks) =>
      var reply := ReplyText(chunks);
      var ai := Bubble("ai", reply);
      match net.userSaveError
      case Some(e) => ([ChatRequest(message), SaveRequest(id, "user", message)], [user, ai, Bubble("error", ErrorPrefix + e)])
      case None =>
        var both := [ChatRequest(message), SaveRequest(id, "user", message), SaveRequest(id, "ai", reply)];
        match net.aiSaveError
        case Some(e) => (both, [user, ai, Bubble("error", ErrorPrefix + e)])
        case None => (both, [user, ai])
  }

  /** `sendMessage`: one turn, from the raw input box text at time `now`.
      Blank input is a no-op. Otherwise the session ends the turn holding
      an id (the existing one, or `"chat-" + now`, announced by a list
      refresh), and every save the turn sends carries that id. A refresh
      that throws ends the turn before anything is posted. */
  function Send(s: Session, input: string, now: nat, net: Network): (t: Turn)
    ensures Trim(input) == "" ==> t == Turn(s, [], [])
    ensures Trim(input) != "" ==> t.session == WithId(s, now)
    ensures !Posts(s, input, net) ==> NoSave(t.requests) && t.shown == []
    ensures Trim(input) != "" && !Posts(s, input, net) ==> t.requests == [ListRequest]
    ensures Posts(s, input, net) ==>
      var ex := Exchange(t.session.active.value, Trim(input), net);
      t.requests == (if NeedsId(s) then [ListRequest] else []) + ex.0 && t.shown == ex.1
  {
    var message := Trim(input);
    if message == "" then Turn(s, [], []) else SendTrimmed(s, message, now, net)
  }

  /** The part of a send after the blank check, for the trimmed message. */
  function SendTrimmed(s: Session, message: string, now: nat, net: Network): (t: Turn)
    ensures t.session == WithId(s, now)
    ensures NeedsId(s) && net.listThrows ==> t.requests == [ListRequest] && t.shown == []
    ensures !(NeedsId(s) && net.listThrows) ==>
      var ex := Exchange(t.session.active.value, message, net);
      t.requests == (if NeedsId(s) then [ListRequest] else []) + ex.0 && t.shown == ex.1
  {
    var s1 := WithId(s, now);
    if NeedsId(s) && net.listThrows then Turn(s1, [ListRequest], [])
    else
      var ex := Exchange(s1.active.value, message, net);
      Turn(s1, (if NeedsId(s) then [ListRequest] else []) + ex.0, ex.1)
  }

  /** The exchange posts the message and otherwise only saves under its id;
      it never refreshes the list. */
  lemma ExchangeSavesUnderId(id: string, message: string, net: Network)
    ensures forall q :: q in Exchange(id, message, net).0 ==>
      q == ChatRequest(message) || (q.SaveRequest? && q.chatId == id)
  {
    var ex := Exchange(id, message, net);
    match net.stream
    case Broken(_) =>
      assert ex.0 == [ChatRequest(message)];
    case Completed(chunks) =>
      var reply := ReplyText(chunks);
      if net.userSaveError.Some? {
        assert ex.0 == [ChatRequest(message), SaveRequest(id, "user", message)];
      } else {
        assert ex.0 == [ChatRequest(message), SaveRequest(id, "user", message), SaveRequest(id, "ai", reply)];
      }
  }

  /** Every save a turn sends carries the id the session holds after it. */
  lemma SavesCarryActiveId(s: Session, input: string, now: nat, net: Network)
    ensures var t := Send(s, input, now, net);
      forall q :: q in t.requests && q.SaveRequest? ==> t.session.active == Some(q.chatId)
  {
    var t := Send(s, input, now, net);
    if Posts(s, input, net) {
      var id := t.session.active.value;
      var ex := Exchange(id, Trim(input), net);
      var pre := if NeedsId(s) then [ListRequest] else [];
      ExchangeSavesUnderId(id, Trim(input), net);
      SavesAfterRefresh(pre, ex.0, id);
    } else {
      assert t.requests == [] || t.requests == [ListRequest];
    }
  }

  /** Saves under one id stay under it behind a save-free prefix. */
  lemma SavesAfterRefresh(pre: seq<Request>, rest: seq<Request>, id: string)
    requires NoSave(pre)
    requires forall q :: q in rest && q.SaveRequest? ==> q.chatId == id
    ensures forall q :: q in pre + rest && q.SaveRequest? ==> q.chatId == id
  {
    forall q | q in pre + rest && q.SaveRequest? ensures q.chatId == id {
      assert q in pre || q in rest;
    }
  }

  /** A broken stream: the message is posted, no save is sent, the error is
      shown, and the active id is kept. */
  lemma BrokenStreamSavesNothing(s: Session, input: string, now: nat, net: Network)
    requires Posts(s, input, net) && net.stream.Broken?
    ensures var t := Send(s, input, now, net);
      && ChatRequest(Trim(input)) in t.requests
      && NoSave(t.requests)
      && t.shown == [Bubble("user", Trim(input)), Bubble("error", ErrorPrefix + net.stream.reason)]
      && t.session == WithId(s, now)
  {
    var t := Send(s, input, now, net);
    var ex := Exchange(t.session.active.value, Trim(input), net);
    assert ex.0 == [ChatRequest(Trim(input))];
    assert t.requests == (if NeedsId(s) then [ListRequest] else []) + ex.0;
    assert t.requests[|t.requests| - 1] == ChatRequest(Trim(input));
  }

  /** A completed stream with both saves accepted: after the optional list
      refresh and the post of the message come exactly two saves, both under
      the active id, the trimmed user message first and the trimmed
      concatenated reply second; both sides are shown. */
  lemma CompletedTurnSavesBoth(s: Session, input: string, now: nat, net: Network)
    requires Posts(s, input, net) && net.stream.Completed?
    requires net.userSaveError.None? && net.aiSaveError.None?
    ensures var t := Send(s, input, now, net);
      var id := t.session.active.value;
      var reply := ReplyText(net.stream.chunks);
      && t.requests == (if NeedsId(s) then [ListRequest] else [])
                       + [ChatRequest(Trim(input)), SaveRequest(id, "user", Trim(input)), SaveRequest(id, "ai", reply)]
      && t.shown == [Bubble("user", Trim(input)), Bubble("ai", reply)]
  {
    var t := Send(s, input, now, net);
    var ex := Exchange(t.session.active.value, Trim(input), net);
    assert ex.0 == [ChatRequest(Trim(input)), SaveRequest(t.session.active.value, "user", Trim(input)),
                    SaveRequest(t.session.active.value, "ai", ReplyText(net.stream.chunks))];
  }

  /** The new-chat button: `currentChatId = null`, so no chat is active. */
  function NewChat(s: Session): (s': Session)
    ensures s'.active.None?
    ensures NeedsId(s')
  {
    Session(None)
  }

  /** `loadChatById`: the opened chat becomes the active one. A list entry
      whose chat id is NULL opens as no chat. */
  function Open(s: Session, chatId: Option<string>): (s': Session)
    ensures s'.active == chatId
  {
    Session(chatId)
  }

  /** The rename button of list entry `chatId`, with `entered` the prompt's
      answer (`None` when cancelled). A request is sent only for a
      non-empty name that differs from the old id; once it settles, the
      active id follows the rename if it was the renamed chat. A rejected
      request leaves the session as it was. */
  function Rename(s: Session, chatId: Option<string>, entered: Option<string>, rejected: bool)
    : (r: (Session, bool))
    ensures r.1 <==> entered.Some? && entered.value != "" && entered != chatId
    ensures !r.1 || rejected || s.active != chatId ==> r.0 == s
    ensures r.1 && !rejected && s.active == chatId ==> r.0.active == entered
  {
    if entered.Some? && entered.value != "" && entered != chatId then
      (if !rejected && s.active == chatId then Session(entered) else s, true)
    else (s, false)
  }

  /** The delete button of list entry `chatId`: after confirmation the
      request is sent; once it settles, deleting the active chat clears the
      active id. Deleting another chat, a cancelled confirmation or a
      rejected request leaves the session as it was. */
  function Delete(s: Session, chatId: Option<string>, confirmed: bool, rejected: bool)
    : (r: (Session, bool))
    ensures r.1 <==> confirmed
    ensures !confirmed || rejected || s.active != chatId ==> r.0 == s
    ensures confirmed && !rejected && s.active == chatId ==> r.0.active.None?
  {
    if confirmed then
      (if !rejected && s.active == chatId then Session(None) else s, true)
    else (s, false)
  }

  /** Chats started at different times get different ids. */
  lemma NewChatIdInjective(m: nat, n: nat)
    ensures NewChatId(m) == NewChatId(n) ==> m == n
  {
    if NewChatId(m) == NewChatId(n) {
      assert Decimal(m) == NewChatId(m)[|ChatIdPrefix|..];
      assert Decimal(n) == NewChatId(n)[|ChatIdPrefix|..];
      DecimalInjective(m, n);
    }
  }

  /** After opening a chat, a send keeps it active and its saves go to it. */
  lemma OpenThenSend(s: Session, chatId: string, input: string, now: nat, net: Network)
    requires chatId != "" && Trim(input) != ""
    ensures var t := Send(Open(s, Some(chatId)), input, now, net);
      && t.session.active == Some(chatId)
      && ListRequest !in t.requests
      && forall q :: q in t.requests && q.SaveRequest? ==> q.chatId == chatId
  {
    var s' := Open(s, Some(chatId));
    SavesCarryActiveId(s', input, now, net);
    var t := Send(s', input, now, net);
    assert !NeedsId(s');
    if Posts(s', input, net) {
      var ex := Exchange(chatId, Trim(input), net);
      assert t.requests == ex.0;
      ExchangeSavesUnderId(chatId, Trim(input), net);
    }
  }

  /** After a new chat, a non-blank send refreshes the list and starts the
      chat `"chat-" + now`, which receives the turn's saves. */
  lemma NewChatThenSend(s: Session, input: string, now: nat, net: Network)
    requires Trim(input) != ""
    ensures var t := Send(NewChat(s), input, now, net);
      && t.session.active == Some(NewChatId(now))
      && t.requests[0] == ListRequest
      && forall q :: q in t.requests && q.SaveRequest? ==> q.chatId == NewChatId(now)
  {
    SavesCarryActiveId(NewChat(s), input, now, net);
  }

  /** Renaming the active chat makes the next turn save under the new name. */
  lemma RenameThenSend(s: Session, newName: string, input: string, now: nat, net: Network)
    requires s.active.Some? && newName != "" && Some(newName) != s.active
    requires Trim(input) != ""
    ensures var (s', sent) := Rename(s, s.active, Some(newName), false);
      var t := Send(s', input, now, net);
      && sent
      && forall q :: q in t.requests && q.SaveRequest? ==> q.chatId == newName
  {
    var (s', _) := Rename(s, s.active, Some(newName), false);
    SavesCarryActiveId(s', input, now, net);
  }

  /** After the active chat is deleted, a non-blank send starts a fresh
      chat `"chat-" + now` instead of saving under the deleted id. */
  lemma DeleteThenSend(s: Session, input: string, now: nat, net: Network)
    requires s.active.Some? && s.active.value != "" && Trim(input) != ""
    ensures var (s', sent) := Delete(s, s.active, true, false);
      var t := Send(s', input, now, net);
      && sent
      && t.session.active == Some(NewChatId(now))
      && forall q :: q in t.requests && q.SaveRequest? ==> q.chatId == NewChatId(now)
  {
    var (s', _) := Delete(s, s.active, true, false);
    SavesCarryActiveId(s', input, now, net);
  }
}

=== FILE: gateway.dfy ===
/** The `/chat` handler of the backend: the empty-message guard, the
    creator-question classifier, the prompt written to the model worker,
    and the bytes relayed back to the caller. The worker process itself is
    a given outcome: the chunks it wrote before exiting, or a spawn failure. */
module Gateway {
  import opened Wrappers
  import opened Http
  import opened Text

  /** The phrases that mark a question about who made the assistant. */
  const CreatorKeywords: seq<string> := [
    "who created you", "your creator", "who made you",
    "who is your owner", "founder", "developer", "made you", "owner", "who built you"
  ]

  /** The instruction placed before the user's message when a creator keyword matches. */
  const SystemInstruction: string :=
    "You are Immorix AI. "
    + "If asked about your creator, respond that Anand Singh Chopra is your creator and owner. "
    + "Never call yourself Mistral."

  /** What the stream carries when the worker cannot be started. */
  const SpawnErrorMarker: string := "\U{274C} Error generating response"

  /** What the model worker did: exited after writing these stdout chunks,
      or failed to start. */
  datatype Worker = Exited(chunks: seq<string>) | SpawnFailed

  /** A streamed reply: the prompt written to the worker's stdin, and the
      text the caller receives before the stream ends. */
  datatype ChatStream = ChatStream(prompt: string, output: string)

  /** `keywords.some(k => text.includes(k))`. */
  function AnyKeyword(text: string, keywords: seq<string>): (r: bool)
    ensures r <==> exists j :: 0 <= j < |keywords| && Contains(text, keywords[j])
    decreases |keywords|
  {
    if keywords == [] then false
    else
      var rest := AnyKeyword(text, keywords[1..]);
      assert rest <==> exists j :: 1 <= j < |keywords| && Contains(text, keywords[j]) by {
        if rest {
          var j :| 0 <= j < |keywords[1..]| && Contains(text, keywords[1..][j]);
          assert keywords[1..][j] == keywords[j + 1];
        }
        forall j | 1 <= j < |keywords| && Contains(text, keywords[j]) ensures rest {
          assert keywords[1..][j - 1] == keywords[j];
        }
      }
      Contains(text, keywords[0]) || rest
  }

  /** The classifier: does the lowercased message ask about the creator? */
  function IsCreatorQuestion(message: string): (r: bool)
    ensures r <==> exists j :: 0 <= j < |CreatorKeywords| && Contains(Lower(message), CreatorKeywords[j])
  {
    AnyKeyword(Lower(message), CreatorKeywords)
  }

  /** The classifier holds exactly when some keyword occurs, as a substring,
      in the lowercased message. */
  lemma CreatorQuestionIff(message: string)
    ensures IsCreatorQuestion(message) <==>
      exists k, i :: k in CreatorKeywords && OccursAt(Lower(message), k, i)
  {
    var text := Lower(message);
    if IsCreatorQuestion(message) {
      var j :| 0 <= j < |CreatorKeywords| && Contains(text, CreatorKeywords[j]);
      var i :| OccursAt(text, CreatorKeywords[j], i);
      assert CreatorKeywords[j] in CreatorKeywords;
    }
    if exists k, i :: k in CreatorKeywords && OccursAt(text, k, i) {
      var k, i :| k in CreatorKeywords && OccursAt(text, k, i);
      var j :| 0 <= j < |CreatorKeywords| && CreatorKeywords[j] == k;
      assert Contains(text, CreatorKeywords[j]);
    }
  }

  /** The classifier ignores ASCII case. */
  lemma CreatorQuestionIgnoresCase(message: string)
    ensures IsCreatorQuestion(Lower(message)) == IsCreatorQuestion(message)
  {
    LowerIsLower(message);
  }

  /** The system part of the prompt: the instruction, or nothing. */
  function SystemFor(message: string): string {
    if IsCreatorQuestion(message) then SystemInstruction else ""
  }

  /** The prompt template before trimming. */
  function Template(system: string, message: string): string {
    "\n" + system + "\nUser: " + message + "\n"
  }

  /** The text in front of the message once the template is trimmed. */
  function Head(system: string): string {
    if system == [] then "User: " else system + "\nUser: "
  }

  function PromptHead(message: string): string {
    Head(SystemFor(message))
  }

  /** Trimming the template drops the leading newlines and the final one,
      provided the system part does not itself start with whitespace. */
  lemma TrimTemplate(system: string, message: string)
    requires system == [] || !IsSpace(system[0])
    ensures Trim(Template(system, message)) == TrimEnd(Head(system) + message)
  {
    var body := Head(system) + message;
    var lead := if system == [] then "\n\n" else "\n";
    assert AllSpace(lead);
    assert (body + "\n")[0] == Head(system)[0];
    calc {
      Trim(Template(system, message));
      { TemplateShape(system, message); }
      TrimEnd(TrimStart(lead + (body + "\n")));
      { DropLead(lead, body + "\n"); }
      TrimEnd(body + "\n");
      { TrimEndSkipsSpace(body, "\n"); }
      TrimEnd(body);
    }
  }

  /** Leading whitespace in front of a non-space character is all `trim`
      removes at the start. */
  lemma DropLead(lead: string, rest: string)
    requires AllSpace(lead) && rest != [] && !IsSpace(rest[0])
    ensures TrimStart(lead + rest) == rest
  {
    TrimStartSkipsSpace(lead, rest);
    TrimStartNoOp(rest);
  }

  /** The template is leading newlines, then the head, the message and one
      final newline. */
  lemma TemplateShape(system: string, message: string)
    ensures Template(system, message)
      == (if system == [] then "\n\n" else "\n") + (Head(system) + message + "\n")
  {
    if system == [] {
      assert Template(system, message) == "\n\n" + (Head(system) + message + "\n");
    } else {
      assert Template(system, message) == "\n" + (Head(system) + message + "\n");
    }
  }

  /** The prompt: the template `"\n" + system + "\nUser: " + message + "\n"`,
      trimmed. It is the head followed by the message, with trailing
      whitespace removed; when the message has any non-space character, the
      message survives whole up to its own trailing whitespace. */
  function ComposePrompt(message: string): (r: string)
    ensures r == TrimEnd(PromptHead(message) + message)
    ensures !AllSpace(message) ==> r == PromptHead(message) + TrimEnd(message)
  {
    var system := SystemFor(message);
    assert system == [] || !IsSpace(system[0]) by {
      assert SystemInstruction[0] == 'Y';
    }
    TrimTemplate(system, message);
    assert !AllSpace(message) ==> TrimEnd(Head(system) + message) == Head(system) + TrimEnd(message) by {
      if !AllSpace(message) {
        TrimEndKeepsPrefix(Head(system), message);
      }
    }
    Trim(Template(system, message))
  }

  /** `POST /chat`: a missing or empty message is refused with 400 before a
      worker is spawned; anything else, whitespace included, is streamed. */
  function HandleChat(message: Option<string>, worker: Worker): (r: Reply<ChatStream>)
    ensures r.Error? <==> message.None? || message.value == ""
    ensures r.Error? ==> r == Error(BadRequest, "Message is required")
    ensures r.Ok? ==> r.value.prompt == ComposePrompt(message.value)
    ensures r.Ok? && worker.Exited? ==> r.value.output == Concat(worker.chunks)
    ensures r.Ok? && worker.SpawnFailed? ==> r.value.output == SpawnErrorMarker
  {
    if message.None? || message.value == "" then Error(BadRequest, "Message is required")
    else
      var prompt := ComposePrompt(message.value);
      match worker
      case Exited(chunks) => Ok(ChatStream(prompt, Concat(chunks)))
      case SpawnFailed => Ok(ChatStream(prompt, SpawnErrorMarker))
  }

  /** A text made only of whitespace contains none of the keywords. */
  lemma SpaceHasNoKeyword(text: string)
    requires AllSpace(text)
    ensures !AnyKeyword(text, CreatorKeywords)
  {
    forall j | 0 <= j < |CreatorKeywords| ensures !Contains(text, CreatorKeywords[j]) {
      var k := CreatorKeywords[j];
      assert !IsSpace(k[0]);
      SpaceLacks(text, k);
    }
  }

  /** Whitespace cannot contain a word that starts with a non-space character. */
  lemma SpaceLacks(text: string, k: string)
    requires AllSpace(text) && k != [] && !IsSpace(k[0])
    ensures !Contains(text, k)
  {
    forall i ensures !OccursAt(text, k, i) {
      if 0 <= i && i + |k| <= |text| {
        assert text[i..i + |k|][0] != k[0] by {
          assert text[i..i + |k|][0] == text[i];
        }
      }
    }
  }

  /** After `User: `, trailing whitespace takes the separating space with it. */
  lemma BareUserLine(message: string)
    requires AllSpace(message)
    ensures TrimEnd("User: " + message) == "User:"
  {
    assert "User: " + message == "User:" + (" " + message);
    assert AllSpace(" " + message) by {
      forall i | 0 <= i < |" " + message| ensures IsSpace((" " + message)[i]) {
        if i > 0 { assert (" " + message)[i] == message[i - 1]; }
      }
    }
    TrimEndSkipsSpace("User:", " " + message);
    TrimEndNoOp("User:");
  }

  /** A whitespace-only message is not refused: it is streamed, and its
      prompt is the bare `User:`. */
  lemma WhitespaceMessageStreams(message: string, worker: Worker)
    requires message != "" && AllSpace(message)
    ensures HandleChat(Some(message), worker).Ok?
    ensures HandleChat(Some(message), worker).value.prompt == "User:"
  {
    assert AllSpace(Lower(message)) by {
      forall i | 0 <= i < |message| ensures IsSpace(Lower(message)[i]) {
        assert IsSpace(message[i]);
      }
    }
    SpaceHasNoKeyword(Lower(message));
    assert PromptHead(message) == "User: ";
    BareUserLine(message);
  }
}

=== FILE: http.dfy ===
/** The reply an Express handler sends: a 200 JSON body, or an error status
    with the `error` string the handler puts in its JSON body. */
module Http {

  datatype Reply<+T> = Ok(value: T) | Error(status: nat, error: string)

  const BadRequest: nat := 400
  const Unauthorized: nat := 401
  const ServerError: nat := 500
}

=== FILE: lifecycle.dfy ===
/** One chat turn end to end: the save requests a client turn sends,
    delivered in order to the save endpoint with the client's bearer
    header, and what fetching the chat returns afterwards. */
module Lifecycle {
  import opened Wrappers
  import Auth
  import Transcript
  import Client
  import Text

  /** Delivers the client's requests in order, each save through the save
      endpoint `elapsed` seconds after the previous insert; other requests
      do not touch the table. */
  function Deliver(store: Transcript.Store, header: Option<string>,
                   verify: string -> Option<Auth.Claims>,
                   requests: seq<Client.Request>, elapsed: nat): Transcript.Store
    decreases |requests|
  {
    if requests == [] then store
    else
      var next := match requests[0]
        case SaveRequest(chatId, role, message) =>
          Transcript.Save(store, header, verify,
                          Transcript.SaveBody(Some(chatId), Some(role), Some(message)), elapsed, false).1
        case _ => store;
      Deliver(next, header, verify, requests[1..], elapsed)
  }

  /** A completed turn whose saves are accepted leaves the chat holding
      what it held before, then the user's trimmed message, then the
      trimmed reply: what the next open of the chat shows, for a chat id the
      fetch route can carry. */
  lemma TurnIsPersisted(store: Transcript.Store, header: Option<string>,
                        verify: string -> Option<Auth.Claims>,
                        s: Client.Session, input: string, now: nat, net: Client.Network, elapsed: nat)
    requires Transcript.Valid(store)
    requires Auth.Authenticate(header, verify).Some?
    requires Client.Posts(s, input, net) && net.stream.Completed?
    requires net.userSaveError.None? && net.aiSaveError.None?
    requires elapsed > 0
    ensures var t := Client.Send(s, input, now, net);
      var id := t.session.active.value;
      var store' := Deliver(store, header, verify, t.requests, elapsed);
      Transcript.GetChat(store', header, verify, id, false).value
        == Transcript.GetChat(store, header, verify, id, false).value
           + [Transcript.Message(Some("user"), Some(Text.Trim(input))),
              Transcript.Message(Some("ai"), Some(Client.ReplyText(net.stream.chunks)))]
  {
    var t := Client.Send(s, input, now, net);
    Client.CompletedTurnSavesBoth(s, input, now, net);
    PersistTurn(store, header, verify, Client.NeedsId(s), t.session.active.value,
                Text.Trim(input), Client.ReplyText(net.stream.chunks), elapsed);
  }

  /** The same, for the request sequence of a completed turn written out. */
  lemma PersistTurn(store: Transcript.Store, header: Option<string>,
                    verify: string -> Option<Auth.Claims>, refresh: bool,
                    id: string, m: string, reply: string, elapsed: nat)
    requires Transcript.Valid(store)
    requires Auth.Authenticate(header, verify).Some?
    requires elapsed > 0
    ensures var requests := (if refresh then [Client.ListRequest] else [])
                            + [Client.ChatRequest(m), Client.SaveRequest(id, "user", m), Client.SaveRequest(id, "ai", reply)];
      Transcript.GetChat(Deliver(store, header, verify, requests, elapsed), header, verify, id, false).value
        == Transcript.GetChat(store, header, verify, id, false).value
           + [Transcript.Message(Some("user"), Some(m)), Transcript.Message(Some("ai"), Some(reply))]
  {
    var userBody := Transcript.SaveBody(Some(id), Some("user"), Some(m));
    var aiBody := Transcript.SaveBody(Some(id), Some("ai"), Some(reply));
    var requests := (if refresh then [Client.ListRequest] else [])
                    + [Client.ChatRequest(m), Client.SaveRequest(id, "user", m), Client.SaveRequest(id, "ai", reply)];
    var s1 := Transcript.Save(store, header, verify, userBody, elapsed, false).1;
    var s2 := Transcript.Save(s1, header, verify, aiBody, elapsed, false).1;
    var before := Transcript.GetChat(store, header, verify, id, false).value;
    var user := Transcript.Message(Some("user"), Some(m));
    var ai := Transcript.Message(Some("ai"), Some(reply));
    calc {
      Transcript.GetChat(Deliver(store, header, verify, requests, elapsed), header, verify, id, false).value;
      { DeliverTurn(store, header, verify, refresh, id, m, reply, elapsed); }
      Transcript.GetChat(s2, header, verify, id, false).value;
      { Transcript.SaveThenGet(s1, header, verify, aiBody, elapsed, id); }
      Transcript.GetChat(s1, header, verify, id, false).value + [ai];
      { Transcript.SaveThenGet(store, header, verify, userBody, elapsed, id); }
      before + [user] + [ai];
      before + [user, ai];
    }
  }

  /** The requests of a completed turn store exactly its two saves, in order. */
  lemma DeliverTurn(store: Transcript.Store, header: Option<string>,
                    verify: string -> Option<Auth.Claims>, refresh: bool,
                    id: string, m: string, reply: string, elapsed: nat)
    ensures var requests := (if refresh then [Client.ListRequest] else [])
                            + [Client.ChatRequest(m), Client.SaveRequest(id, "user", m), Client.SaveRequest(id, "ai", reply)];
      var s1 := Transcript.Save(store, header, verify,
                                Transcript.SaveBody(Some(id), Some("user"), Some(m)), elapsed, false).1;
      Deliver(store, header, verify, requests, elapsed)
        == Transcript.Save(s1, header, verify, Transcript.SaveBody(Some(id), Some("ai"), Some(reply)), elapsed, false).1
  {
    var r3 := [Client.SaveRequest(id, "ai", reply)];
    var r2 := [Client.SaveRequest(id, "user", m), Client.SaveRequest(id, "ai", reply)];
    var r1 := [Client.ChatRequest(m), Client.SaveRequest(id, "user", m), Client.SaveRequest(id, "ai", reply)];
    assert r1[1..] == r2;
    assert r2[1..] == r3;
    assert r3[1..] == [];
    var s1 := Transcript.Save(store, header, verify,
                              Transcript.SaveBody(Some(id), Some("user"), Some(m)), elapsed, false).1;
    var s2 := Transcript.Save(s1, header, verify,
                              Transcript.SaveBody(Some(id), Some("ai"), Some(reply)), elapsed, false).1;
    assert Deliver(s1, header, verify, r3, elapsed) == s2;
    assert Deliver(store, header, verify, r2, elapsed) == s2;
    assert Deliver(store, header, verify, r1, elapsed) == s2;
    if refresh {
      assert ([Client.ListRequest] + r1)[1..] == r1;
      assert ([Client.ListRequest] + r1)[0] == Client.ListRequest;
    } else {
      assert [] + r1 == r1;
    }
  }
}

=== FILE: text.dfy ===
/** The string primitives the backend and the browser client use:
    `String.prototype.trim`, ASCII `toLowerCase`, `includes`, the decimal
    rendering of an integer, and string concatenation of stream chunks. */
module Text {

  /** The characters `trim` removes: ECMAScript WhiteSpace and
      LineTerminator code points (TAB, LF, VT, FF, CR, the Zs category,
      U+2028, U+2029 and the byte-order mark U+FEFF). */
  predicate IsSpace(c: char) {
    var n := c as int;
    n == 0x09 || n == 0x0A || n == 0x0B || n == 0x0C || n == 0x0D || n == 0x20
    || n == 0xA0 || n == 0x1680 || (0x2000 <= n <= 0x200A) || n == 0x2028
    || n == 0x2029 || n == 0x202F || n == 0x205F || n == 0x3000 || n == 0xFEFF
  }

  predicate AllSpace(s: string) {
    forall i :: 0 <= i < |s| ==> IsSpace(s[i])
  }

  /** Removes the longest whitespace prefix. */
  function TrimStart(s: string): (r: string)
    ensures |r| <= |s| && r == s[|s| - |r|..]
    ensures AllSpace(s[..|s| - |r|])
    ensures r == [] || !IsSpace(r[0])
    decreases |s|
  {
    if |s| > 0 && IsSpace(s[0]) then
      var r := TrimStart(s[1..]);
      assert r == s[|s| - |r|..] && AllSpace(s[..|s| - |r|]) by {
        DropSpaceStep(s, r);
      }
      r
    else s
  }

  /** Removes the longest whitespace suffix. */
  function TrimEnd(s: string): (r: string)
    ensures |r| <= |s| && r == s[..|r|]
    ensures AllSpace(s[|r|..])
    ensures r == [] || !IsSpace(r[|r| - 1])
    decreases |s|
  {
    if |s| > 0 && IsSpace(s[|s| - 1]) then
      var r := TrimEnd(s[..|s| - 1]);
      assert r == s[..|r|] && AllSpace(s[|r|..]) by {
        DropSpaceEndStep(s, r);
      }
      r
    else s
  }

  /** Dropping one leading space onto a whitespace prefix keeps it one. */
  lemma DropSpaceStep(s: string, r: string)
    requires |s| > 0 && IsSpace(s[0])
    requires |r| <= |s| - 1 && r == s[1..][|s| - 1 - |r|..] && AllSpace(s[1..][..|s| - 1 - |r|])
    ensures r == s[|s| - |r|..] && AllSpace(s[..|s| - |r|])
  {
    var n := |s| - |r|;
    forall i | 0 <= i < n ensures IsSpace(s[..n][i]) {
      if i > 0 {
        assert s[..n][i] == s[1..][..n - 1][i - 1];
      }
    }
  }

  /** Dropping one trailing space onto a whitespace suffix keeps it one. */
  lemma DropSpaceEndStep(s: string, r: string)
    requires |s| > 0 && IsSpace(s[|s| - 1])
    requires |r| <= |s| - 1 && r == s[..|s| - 1][..|r|] && AllSpace(s[..|s| - 1][|r|..])
    ensures r == s[..|r|] && AllSpace(s[|r|..])
  {
    forall i | 0 <= i < |s| - |r| ensures IsSpace(s[|r|..][i]) {
      if i < |s| - 1 - |r| {
        assert s[|r|..][i] == s[..|s| - 1][|r|..][i];
      }
    }
  }

  /** `s.trim()`: the middle slice of `s` left after whitespace is removed
      from both ends; it neither starts nor ends with whitespace. */
  function Trim(s: string): (r: string)
    ensures |r| <= |s|
    ensures r == [] || (!IsSpace(r[0]) && !IsSpace(r[|r| - 1]))
  {
    TrimEnd(TrimStart(s))
  }

  /** `r` is a middle slice of `s`, and everything of `s` on either side of
      it is whitespace. */
  ghost predicate SpaceFramed(s: string, r: string)
  {
    exists i ::
      && 0 <= i <= |s| - |r|
      && r == s[i..i + |r|]
      && AllSpace(s[..i])
      && AllSpace(s[i + |r|..])
  }

  /** What `Trim` keeps is a middle slice of its input, and everything it
      drops on either side is whitespace. */
  lemma TrimIsSlice(s: string)
    ensures SpaceFramed(s, Trim(s))
  {
    TrimParts(s, TrimStart(s), Trim(s));
  }

  /** The slice arithmetic behind `Trim`, stated over plain sequences. */
  lemma TrimParts(s: string, t: string, r: string)
    requires |t| <= |s| && t == s[|s| - |t|..] && AllSpace(s[..|s| - |t|])
    requires |r| <= |t| && r == t[..|r|] && AllSpace(t[|r|..])
    ensures SpaceFramed(s, r)
  {
    var i := |s| - |t|;
    assert s[i + |r|..] == t[|r|..];
    assert 0 <= i <= |s| - |r| && r == s[i..i + |r|]
           && AllSpace(s[..i]) && AllSpace(s[i + |r|..]);
  }

  /** A string trims to the empty string exactly when it is all whitespace. */
  lemma TrimEmptyIff(s: string)
    ensures Trim(s) == [] <==> AllSpace(s)
  {
    if Trim(s) == [] {
      var t := TrimStart(s);
      var n := |s| - |t|;
      assert AllSpace(t) by {
        assert t[0..] == t;
      }
      assert s == s[..n] + t;
      AllSpaceConcat(s[..n], t);
    }
    if AllSpace(s) {
      AllSpaceTrimsAway(s);
    }
  }

  lemma {:induction false} AllSpaceTrimsAway(s: string)
    requires AllSpace(s)
    ensures TrimStart(s) == []
    decreases |s|
  {
    if s != [] {
      assert AllSpace(s[1..]) by {
        forall i | 0 <= i < |s[1..]| ensures IsSpace(s[1..][i]) {
          assert s[1..][i] == s[i + 1];
        }
      }
      AllSpaceTrimsAway(s[1..]);
    }
  }

  lemma AllSpaceConcat(a: string, b: string)
    requires AllSpace(a) && AllSpace(b)
    ensures AllSpace(a + b)
  {
    forall k | 0 <= k < |a + b| ensures IsSpace((a + b)[k]) {
      if k < |a| { assert (a + b)[k] == a[k]; } else { assert (a + b)[k] == b[k - |a|]; }
    }
  }

  /** Trimming a trimmed string changes nothing. */
  lemma TrimIdempotent(s: string)
    ensures Trim(Trim(s)) == Trim(s)
  {
    var r := Trim(s);
    TrimStartNoOp(r);
    TrimEndNoOp(r);
  }

  lemma TrimStartNoOp(s: string)
    requires s == [] || !IsSpace(s[0])
    ensures TrimStart(s) == s
  {
  }

  lemma TrimEndNoOp(s: string)
    requires s == [] || !IsSpace(s[|s| - 1])
    ensures TrimEnd(s) == s
  {
  }

  /** Whitespace in front of a string is absorbed by TrimStart. */
  lemma {:induction false} TrimStartSkipsSpace(w: string, x: string)
    requires AllSpace(w)
    ensures TrimStart(w + x) == TrimStart(x)
    decreases |w|
  {
    if w != [] {
      assert (w + x)[0] == w[0] && IsSpace(w[0]);
      assert (w + x)[1..] == w[1..] + x;
      assert AllSpace(w[1..]) by {
        forall k | 0 <= k < |w| - 1 ensures IsSpace(w[1..][k]) {
          assert w[1..][k] == w[k + 1];
        }
      }
      assert TrimStart(w + x) == TrimStart((w + x)[1..]);
      TrimStartSkipsSpace(w[1..], x);
    } else {
      assert w + x == x;
    }
  }

  /** Whitespace after a string is absorbed by TrimEnd. */
  lemma {:induction false} TrimEndSkipsSpace(x: string, w: string)
    requires AllSpace(w)
    ensures TrimEnd(x + w) == TrimEnd(x)
    decreases |w|
  {
    if w != [] {
      assert (x + w)[..|x + w| - 1] == x + w[..|w| - 1];
      TrimEndSkipsSpace(x, w[..|w| - 1]);
    } else {
      assert x + w == x;
    }
  }

  /** TrimEnd of `p + m` only touches `m` when `m` has a non-space character. */
  lemma {:induction false} TrimEndKeepsPrefix(p: string, m: string)
    requires !AllSpace(m)
    ensures TrimEnd(p + m) == p + TrimEnd(m)
    decreases |m|
  {
    var n := |m|;
    if IsSpace(m[n - 1]) {
      assert (p + m)[..|p + m| - 1] == p + m[..n - 1];
      assert !AllSpace(m[..n - 1]) by {
        var k :| 0 <= k < n && !IsSpace(m[k]);
        assert k < n - 1;
        assert m[..n - 1][k] == m[k];
      }
      TrimEndKeepsPrefix(p, m[..n - 1]);
    } else {
      assert (p + m)[|p + m| - 1] == m[n - 1];
    }
  }

  /** ASCII `toLowerCase` of one character. */
  function LowerChar(c: char): char {
    if 'A' <= c <= 'Z' then (c as int + 32) as char else c
  }

  /** ASCII `toLowerCase`: every character lowered in place. */
  function Lower(s: string): (r: string)
    ensures |r| == |s|
    ensures forall i :: 0 <= i < |s| ==> r[i] == LowerChar(s[i])
  {
    seq(|s|, i requires 0 <= i < |s| => LowerChar(s[i]))
  }

  /** Lowering leaves no ASCII capital behind and is idempotent. */
  lemma LowerIsLower(s: string)
    ensures forall i :: 0 <= i < |s| ==> !('A' <= Lower(s)[i] <= 'Z')
    ensures Lower(Lower(s)) == Lower(s)
  {
  }

  /** `k` occurs in `s` starting at index `i`. */
  predicate OccursAt(s: string, k: string, i: int) {
    0 <= i && i + |k| <= |s| && s[i..i + |k|] == k
  }

  /** `s.includes(k)`: `k` occurs somewhere in `s`. */
  function Contains(s: string, k: string): (r: bool)
    ensures r <==> exists i :: OccursAt(s, k, i)
    decreases |s|
  {
    if |k| > |s| then false
    else if s[..|k|] == k then assert OccursAt(s, k, 0); true
    else
      var r := Contains(s[1..], k);
      assert r ==> exists i :: OccursAt(s, k, i) by {
        if r {
          var j :| OccursAt(s[1..], k, j);
          assert s[1..][j..j + |k|] == s[j + 1..j + 1 + |k|];
          assert OccursAt(s, k, j + 1);
        }
      }
      assert (exists i :: OccursAt(s, k, i)) ==> r by {
        if exists i :: OccursAt(s, k, i) {
          var i :| OccursAt(s, k, i);
          assert i != 0;
          assert s[1..][i - 1..i - 1 + |k|] == s[i..i + |k|];
          assert OccursAt(s[1..], k, i - 1);
        }
      }
      r
  }

  /** Concatenation of chunks in order (`fullText += chunk`): the text
      starts with the first chunk and ends with the last, and no chunks
      give no text. */
  function Concat(chunks: seq<string>): (r: string)
    ensures chunks == [] ==> r == []
    ensures chunks != [] ==> chunks[0] <= r
    ensures chunks != [] ==> var last := chunks[|chunks| - 1];
      |last| <= |r| && r[|r| - |last|..] == last
    decreases |chunks|
  {
    if chunks == [] then []
    else
      var init := chunks[..|chunks| - 1];
      var last := chunks[|chunks| - 1];
      var prev := Concat(init);
      assert chunks[0] <= prev + last by {
        if init == [] {
          assert chunks[0] == last;
        } else {
          assert init[0] == chunks[0];
          assert chunks[0] == (prev + last)[..|chunks[0]|];
        }
      }
      assert (prev + last)[|prev|..] == last;
      prev + last
  }

  /** Concatenating two runs of chunks is concatenating their texts. */
  lemma {:induction false} ConcatAppend(a: seq<string>, b: seq<string>)
    ensures Concat(a + b) == Concat(a) + Concat(b)
    decreases |b|
  {
    if b == [] {
      assert a + b == a;
    } else {
      var init := b[..|b| - 1];
      var last := b[|b| - 1];
      assert (a + b)[..|a + b| - 1] == a + init;
      assert (a + b)[|a + b| - 1] == last;
      ConcatAppend(a, init);
      calc {
        Concat(a + b);
        Concat(a + init) + last;
        Concat(a) + Concat(init) + last;
        Concat(a) + (Concat(init) + last);
      }
    }
  }

  /** One chunk concatenates to itself: with `ConcatAppend` this makes the
      text exactly the chunks joined in order, and nothing more. */
  lemma ConcatOne(c: string)
    ensures Concat([c]) == c
  {
    assert [c][..0] == [];
  }

  /** Appending a chunk appends its text: `fullText += chunk`. */
  lemma ConcatSnoc(chunks: seq<string>, c: string)
    ensures Concat(chunks + [c]) == Concat(chunks) + c
  {
    ConcatAppend(chunks, [c]);
    ConcatOne(c);
  }

  /** Every chunk appears in the concatenation, at the offset where the
      chunks before it end. */
  lemma ConcatContainsChunk(chunks: seq<string>, k: nat)
    requires k < |chunks|
    ensures OccursAt(Concat(chunks), chunks[k], |Concat(chunks[..k])|)
  {
    assert chunks == chunks[..k] + [chunks[k]] + chunks[k + 1..];
    ConcatAppend(chunks[..k] + [chunks[k]], chunks[k + 1..]);
    ConcatAppend(chunks[..k], [chunks[k]]);
    assert ([] + [chunks[k]])[..0] == [];
    ConcatOne(chunks[k]);
  }

  function DigitChar(d: nat): char
    requires d < 10
  {
    ('0' as int + d) as char
  }

  predicate IsDigit(c: char) {
    '0' <= c <= '9'
  }

  /** `String(n)` for a non-negative integer: its decimal digits, with no
      leading zero. */
  function Decimal(n: nat): (r: string)
    ensures |r| > 0
    ensures forall i :: 0 <= i < |r| ==> IsDigit(r[i])
    ensures r[0] == '0' ==> n == 0
    decreases n
  {
    if n < 10 then [DigitChar(n)] else Decimal(n / 10) + [DigitChar(n % 10)]
  }

  /** The value of a string of decimal digits. */
  function ParseDecimal(s: string): nat
    requires forall i :: 0 <= i < |s| ==> IsDigit(s[i])
  {
    if s == [] then 0
    else
      assert IsDigit(s[|s| - 1]);
      ParseDecimal(s[..|s| - 1]) * 10 + (s[|s| - 1] as int - '0' as int)
  }

  /** Reading back the decimal rendering gives the number. */
  lemma {:induction false} DecimalRoundTrip(n: nat)
    ensures ParseDecimal(Decimal(n)) == n
    decreases n
  {
    if n >= 10 {
      var d := Decimal(n);
      assert d[..|d| - 1] == Decimal(n / 10);
      DecimalRoundTrip(n / 10);
    }
  }

  /** Different numbers render differently. */
  lemma DecimalInjective(m: nat, n: nat)
    ensures Decimal(m) == Decimal(n) ==> m == n
  {
    DecimalRoundTrip(m);
    DecimalRoundTrip(n);
  }
}

=== FILE: transcript.dfy ===
/** The chat-history endpoints: `/api/chat/save`, `/api/chat/list` and
    `/api/chat/:chat_id`, over the `chats` table held as a sequence of rows
    in insertion order. Every endpoint first verifies the bearer token;
    the user id it stores or filters by is the token's, never the body's.
    `CURRENT_TIMESTAMP` is a clock the store carries, advanced by a given
    number of seconds at each insert, so timestamps never decrease. */
module Transcript {
  import opened Wrappers
  import opened Http
  import Auth

  /** One `chats` row. Body fields the client left out are stored as NULL. */
  datatype Row = Row(userId: nat, chatId: Option<string>, role: Option<string>,
                     message: Option<string>, timestamp: int)

  datatype Store = Store(rows: seq<Row>, clock: int)

  /** The JSON body of a save request. */
  datatype SaveBody = SaveBody(chatId: Option<string>, role: Option<string>, message: Option<string>)

  /** One element of a fetched chat: `{role, message}`. */
  datatype Message = Message(role: Option<string>, message: Option<string>)

  const EmptyStore: Store := Store([], 0)

  predicate Chronological(rows: seq<Row>) {
    forall i, j :: 0 <= i < j < |rows| ==> rows[i].timestamp <= rows[j].timestamp
  }

  /** Rows were inserted in timestamp order, none later than the clock. */
  predicate Valid(s: Store) {
    && Chronological(s.rows)
    && forall i :: 0 <= i < |s.rows| ==> s.rows[i].timestamp <= s.clock
  }

  /** The empty table at clock zero is valid. */
  lemma EmptyStoreValid()
    ensures Valid(EmptyStore)
  {
  }

  /** `user_id = ? AND chat_id = ?`; a NULL chat id equals nothing. */
  predicate InChat(row: Row, userId: nat, chatId: string) {
    row.userId == userId && row.chatId == Some(chatId)
  }

  /** The rows one chat query selects: exactly the caller's rows of that
      chat, each as often as it is stored, in timestamp order. Rows with
      equal timestamps come back in insertion order here, one of the orders
      the database may use. */
  function ChatRows(rows: seq<Row>, userId: nat, chatId: string): (r: seq<Row>)
    ensures forall x :: multiset(r)[x] == if InChat(x, userId, chatId) then multiset(rows)[x] else 0
    ensures forall i :: 0 <= i < |r| ==> InChat(r[i], userId, chatId)
    ensures Chronological(rows) ==> Chronological(r)
    decreases |rows|
  {
    if rows == [] then []
    else
      var init := rows[..|rows| - 1];
      var last := rows[|rows| - 1];
      assert rows == init + [last];
      var prev := ChatRows(init, userId, chatId);
      assert Chronological(rows) && InChat(last, userId, chatId) ==> Chronological(prev + [last]) by {
        if Chronological(rows) && InChat(last, userId, chatId) {
          ChronologicalSnoc(prev, init, last);
        }
      }
      if InChat(last, userId, chatId) then prev + [last] else prev
  }

  /** Appending the latest row to a chronological selection of earlier rows
      keeps it chronological. */
  lemma ChronologicalSnoc(prev: seq<Row>, init: seq<Row>, last: Row)
    requires Chronological(prev) && Chronological(init + [last])
    requires forall x :: multiset(prev)[x] <= multiset(init)[x]
    ensures Chronological(prev + [last])
  {
    var r := prev + [last];
    forall i, j | 0 <= i < j < |r| ensures r[i].timestamp <= r[j].timestamp {
      if j == |r| - 1 {
        assert multiset(prev)[prev[i]] > 0;
        assert prev[i] in multiset(init);
        var k :| 0 <= k < |init| && init[k] == prev[i];
        assert (init + [last])[k] == prev[i];
        assert (init + [last])[|init|] == last;
      }
    }
  }

  /** The user has a row under chat id `c`. */
  predicate Owns(rows: seq<Row>, userId: nat, c: Option<string>) {
    exists i :: 0 <= i < |rows| && rows[i].userId == userId && rows[i].chatId == c
  }

  lemma OwnsSnoc(init: seq<Row>, last: Row, userId: nat, c: Option<string>)
    ensures Owns(init + [last], userId, c) <==>
      Owns(init, userId, c) || (last.userId == userId && last.chatId == c)
  {
    var rows := init + [last];
    if Owns(rows, userId, c) {
      var i :| 0 <= i < |rows| && rows[i].userId == userId && rows[i].chatId == c;
      if i < |init| { assert init[i] == rows[i]; }
    }
    if Owns(init, userId, c) {
      var i :| 0 <= i < |init| && init[i].userId == userId && init[i].chatId == c;
      assert rows[i] == init[i];
    }
    assert rows[|init|] == last;
  }

  /** `SELECT DISTINCT chat_id FROM chats WHERE user_id = ?`: each chat id
      the user has a row under, once. */
  function ChatIds(rows: seq<Row>, userId: nat): (r: seq<Option<string>>)
    ensures forall c :: c in r <==> Owns(rows, userId, c)
    ensures forall i, j :: 0 <= i < j < |r| ==> r[i] != r[j]
    decreases |rows|
  {
    if rows == [] then []
    else
      var init := rows[..|rows| - 1];
      var last := rows[|rows| - 1];
      assert rows == init + [last];
      var prev := ChatIds(init, userId);
      assert forall c :: Owns(rows, userId, c) <==>
        Owns(init, userId, c) || (last.userId == userId && last.chatId == c) by {
        forall c ensures Owns(rows, userId, c) <==>
          Owns(init, userId, c) || (last.userId == userId && last.chatId == c) {
          OwnsSnoc(init, last, userId, c);
        }
      }
      if last.userId == userId && last.chatId !in prev then prev + [last.chatId] else prev
  }

  /** `POST /api/chat/save`. A token that fails verification gets 401 and a
      failed insert 500, and neither changes a row; otherwise exactly one
      row is appended, owned by the token's user, stamped with the advanced
      clock, and every existing row is left as it was. */
  function Save(s: Store, header: Option<string>, verify: string -> Option<Auth.Claims>,
                body: SaveBody, elapsed: nat, writeFails: bool): (r: (Reply<bool>, Store))
    ensures Auth.Authenticate(header, verify).None? ==> r == (Error(Unauthorized, "Unauthorized"), s)
    ensures Auth.Authenticate(header, verify).Some? && writeFails ==> r == (Error(ServerError, "DB Error"), s)
    ensures r.0.Ok? <==> Auth.Authenticate(header, verify).Some? && !writeFails
    ensures r.0.Ok? ==>
      r.1.rows == s.rows + [Row(Auth.Authenticate(header, verify).value.id, body.chatId, body.role,
                                body.message, s.clock + elapsed)]
    ensures Valid(s) ==> Valid(r.1)
  {
    match Auth.Authenticate(header, verify)
    case None => (Error(Unauthorized, "Unauthorized"), s)
    case Some(user) =>
      if writeFails then (Error(ServerError, "DB Error"), s)
      else
        var now := s.clock + elapsed;
        var rows := s.rows + [Row(user.id, body.chatId, body.role, body.message, now)];
        assert rows[..|s.rows|] == s.rows;
        (Ok(true), Store(rows, now))
  }

  /** `GET /api/chat/list`: 401 on a bad token, 500 on a failed read;
      otherwise the caller's chat ids, each once, and none that only other
      users have. */
  function ListChats(s: Store, header: Option<string>, verify: string -> Option<Auth.Claims>,
                     readFails: bool): (r: Reply<seq<Option<string>>>)
    ensures Auth.Authenticate(header, verify).None? ==> r == Error(Unauthorized, "Unauthorized")
    ensures Auth.Authenticate(header, verify).Some? && readFails ==> r == Error(ServerError, "DB Error")
    ensures r.Ok? <==> Auth.Authenticate(header, verify).Some? && !readFails
    ensures r.Ok? ==> var me := Auth.Authenticate(header, verify).value.id;
      && (forall c :: c in r.value <==> Owns(s.rows, me, c))
      && (forall i, j :: 0 <= i < j < |r.value| ==> r.value[i] != r.value[j])
  {
    match Auth.Authenticate(header, verify)
    case None => Error(Unauthorized, "Unauthorized")
    case Some(user) =>
      if readFails then Error(ServerError, "DB Error") else Ok(ChatIds(s.rows, user.id))
  }

  /** Drops the columns a fetch does not select. */
  function Messages(rows: seq<Row>): (r: seq<Message>)
    ensures |r| == |rows|
    ensures forall i :: 0 <= i < |rows| ==> r[i] == Message(rows[i].role, rows[i].message)
  {
    seq(|rows|, i requires 0 <= i < |rows| => Message(rows[i].role, rows[i].message))
  }

  /** `GET /api/chat/:chat_id`: 401 on a bad token, 500 on a failed read;
      otherwise the role and message of the rows `ChatRows` selects for the
      caller, in that order. */
  function GetChat(s: Store, header: Option<string>, verify: string -> Option<Auth.Claims>,
                   chatId: string, readFails: bool): (r: Reply<seq<Message>>)
    ensures Auth.Authenticate(header, verify).None? ==> r == Error(Unauthorized, "Unauthorized")
    ensures Auth.Authenticate(header, verify).Some? && readFails ==> r == Error(ServerError, "DB Error")
    ensures r.Ok? <==> Auth.Authenticate(header, verify).Some? && !readFails
    ensures r.Ok? ==>
      r.value == Messages(ChatRows(s.rows, Auth.Authenticate(header, verify).value.id, chatId))
  {
    match Auth.Authenticate(header, verify)
    case None => Error(Unauthorized, "Unauthorized")
    case Some(user) =>
      if readFails then Error(ServerError, "DB Error")
      else Ok(Messages(ChatRows(s.rows, user.id, chatId)))
  }

  /** A row that is not in the chat does not change what the chat query selects. */
  lemma ChatRowsAppendOther(rows: seq<Row>, x: Row, userId: nat, chatId: string)
    requires !InChat(x, userId, chatId)
    ensures ChatRows(rows + [x], userId, chatId) == ChatRows(rows, userId, chatId)
  {
    assert (rows + [x])[..|rows|] == rows;
  }

  /** A row in the chat is selected last. */
  lemma ChatRowsAppendOwn(rows: seq<Row>, x: Row, userId: nat, chatId: string)
    requires InChat(x, userId, chatId)
    ensures ChatRows(rows + [x], userId, chatId) == ChatRows(rows, userId, chatId) + [x]
  {
    assert (rows + [x])[..|rows|] == rows;
  }

  /** A row of another user does not change the caller's chat ids. */
  lemma ChatIdsAppendOther(rows: seq<Row>, x: Row, userId: nat)
    requires x.userId != userId
    ensures ChatIds(rows + [x], userId) == ChatIds(rows, userId)
  {
    assert (rows + [x])[..|rows|] == rows;
  }

  /** Isolation: a save by one user changes neither the chat list nor any
      fetched chat of a different user. */
  lemma SaveIsolation(s: Store, header: Option<string>, header': Option<string>,
                      verify: string -> Option<Auth.Claims>, body: SaveBody, elapsed: nat,
                      writeFails: bool, chatId: string, readFails: bool)
    requires Auth.Authenticate(header, verify).Some? && Auth.Authenticate(header', verify).Some?
    requires Auth.Authenticate(header, verify).value.id != Auth.Authenticate(header', verify).value.id
    ensures var s' := Save(s, header, verify, body, elapsed, writeFails).1;
      && ListChats(s', header', verify, readFails) == ListChats(s, header', verify, readFails)
      && GetChat(s', header', verify, chatId, readFails) == GetChat(s, header', verify, chatId, readFails)
  {
    var (reply, s') := Save(s, header, verify, body, elapsed, writeFails);
    if reply.Ok? {
      var other := Auth.Authenticate(header', verify).value.id;
      var x := Row(Auth.Authenticate(header, verify).value.id, body.chatId, body.role,
                   body.message, s.clock + elapsed);
      ChatIdsAppendOther(s.rows, x, other);
      ChatRowsAppendOther(s.rows, x, other, chatId);
    }
  }

  /** Saving into a chat and fetching it returns the earlier messages
      followed by the new one, when the new row is stamped in a later second
      than every row before it (rows within one second have no fixed order):
      the store is valid, so no row is later than its clock, and the clock
      advances. */
  lemma SaveThenGet(s: Store, header: Option<string>, verify: string -> Option<Auth.Claims>,
                    body: SaveBody, elapsed: nat, chatId: string)
    requires Valid(s)
    requires Auth.Authenticate(header, verify).Some?
    requires body.chatId == Some(chatId)
    requires elapsed > 0
    ensures var s' := Save(s, header, verify, body, elapsed, false).1;
      GetChat(s', header, verify, chatId, false).value
        == GetChat(s, header, verify, chatId, false).value + [Message(body.role, body.message)]
  {
    var s' := Save(s, header, verify, body, elapsed, false).1;
    var me := Auth.Authenticate(header, verify).value.id;
    var x := Row(me, body.chatId, body.role, body.message, s.clock + elapsed);
    ChatRowsAppendOwn(s.rows, x, me, chatId);
    MessagesSnoc(ChatRows(s.rows, me, chatId), x);
  }

  lemma MessagesSnoc(rows: seq<Row>, x: Row)
    ensures Messages(rows + [x]) == Messages(rows) + [Message(x.role, x.message)]
  {
    var a := Messages(rows + [x]);
    var b := Messages(rows) + [Message(x.role, x.message)];
    forall i | 0 <= i < |a| ensures a[i] == b[i] {
      if i < |rows| {
        assert (rows + [x])[i] == rows[i];
      }
    }
  }

  /** After a save, the caller's chat list holds the earlier ids and the
      saved one, and nothing else. */
  lemma SaveThenList(s: Store, header: Option<string>, verify: string -> Option<Auth.Claims>,
                     body: SaveBody, elapsed: nat)
    requires Auth.Authenticate(header, verify).Some?
    ensures var s' := Save(s, header, verify, body, elapsed, false).1;
      forall c :: c in ListChats(s', header, verify, false).value <==>
        c in ListChats(s, header, verify, false).value || c == body.chatId
  {
    var s' := Save(s, header, verify, body, elapsed, false).1;
    var me := Auth.Authenticate(header, verify).value.id;
    var x := Row(me, body.chatId, body.role, body.message, s.clock + elapsed);
    forall c ensures Owns(s'.rows, me, c) <==> Owns(s.rows, me, c) || c == body.chatId {
      OwnsSnoc(s.rows, x, me, c);
    }
  }

  /** A chat id under which the caller has no row fetches as empty, whoever
      else uses it: a chat id is scoped to the user who saved under it. */
  lemma ForeignChatIsEmpty(s: Store, header: Option<string>, verify: string -> Option<Auth.Claims>,
                           chatId: string)
    requires Auth.Authenticate(header, verify).Some?
    requires forall i :: 0 <= i < |s.rows| ==>
      !InChat(s.rows[i], Auth.Authenticate(header, verify).value.id, chatId)
    ensures GetChat(s, header, verify, chatId, false) == Ok([])
  {
  }
}

=== FILE: wrappers.dfy ===
/** Optional values: a JavaScript `undefined`/`null` is `None`. */
module Wrappers {

  datatype Option<+T> = None | Some(value: T)
}
